=== FILE: README.md ===
# FPS gameplay logic in Dafny

A model of the per-frame decision logic of a Unity first-person shooter: the
player's gun (ammunition, fire gating, reload), weapon selection with its switch
lock, the friendly NPC's sight table, gun and Attack/Chase state behaviours, the
discrete parts of the player controller (head-bob timeline and footsteps, movement
status, crouch and jump, pickups) and the two doors.

Every script becomes an immutable record plus pure step functions.  What the engine
supplies each frame — button edges, the animator's "Reload" state, grounded flag,
speeds, distances, angles, what a ray hit, deltaTime — is a parameter.  Times and
distances are exact `real`s; ammunition is an unbounded `int`.

Modules: `Optional`, `FrameTime` (sums of frame times), `FireTimer` (the saturating
shot-delay counter used by the gun and by the NPC), `Weapon`, `WeaponManager`,
`FriendlyAI`, `Attack`, `Chase`, `HeadBob` (the CurveControlledBob class),
`FPSController`, `Door`, `EndDoor`.

Points of the code that a reader might expect to behave otherwise:
- `Reload` has no "already reloading" or "already full" outcome. It transfers
  whatever fits, possibly zero rounds, and never looks at the reload animation.
- The shot-delay counter stops growing once it reaches the fire rate.
- A shotgun shot does not reset the counter.
- The NPC's sight table is the one in FriendlyAI.cs. A non-zombie ray hit inside
  10 units sets Chase. There is no line-of-sight-gated patrol priority.
- Switching is refused while locked or while the slot's weapon is not picked up.
  The source does not tell the two refusals apart.

## Model

| member | source | states |
|---|---|---|
| FireTimer.Advance | Weapon.cs:122-125 | The counter is frozen once it has reached the fire rate. Below it, it grows by exactly the frame time, so it never decreases for non-negative frame times. |
| FireTimer.ReadyExactlyWhenElapsed | FriendlyAI.cs:168-174 | After a run of frames, the counter holds the exact elapsed time while that stays below the fire rate. Once the elapsed time reaches the fire rate, the counter is at least the fire rate. |
| Weapon.Start | Weapon.cs:64-73 | Capacity, reserve and fire rate are the given ones, and the magazine starts full at that capacity. The counter starts at zero and no reload is playing. With non-negative capacity and reserve, the ammunition invariant holds. |
| Weapon.Reload | Weapon.cs:194-205 | Magazine plus reserve is conserved. The rounds moved are min(capacity − magazine, reserve). A reserve ≤ 0 changes nothing. The invariant 0 ≤ magazine ≤ capacity, reserve ≥ 0 is preserved. Afterwards the magazine is full or the reserve is empty. Nothing else changes. |
| Weapon.Fire | Weapon.cs:145-189 | A shot happens iff counter ≥ fire rate, magazine > 0 and no reload is playing. Otherwise nothing changes. A shot takes exactly one round and leaves the reserve alone. A rifle shot resets the counter; a shotgun shot does not. Nothing but the magazine and the counter changes. The magazine never goes negative. |
| Weapon.DoReload | Weapon.cs:210-217 | A reload animation is requested iff none is playing. It is only a request: no ammunition moves. |
| Weapon.SyncReloading | Weapon.cs:131-137 | isReloading mirrors the animator's "Reload" state, and nothing else changes. |
| Weapon.Update | Weapon.cs:79-126 | The trigger is held fire for rifles and the press edge for the shotgun. A shot needs the trigger and rounds in the magazine. An empty-magazine trigger never fires. A reload is requested iff no reload is playing and either the trigger met an empty magazine, or R was pressed while the magazine after this frame's shot is not full and the reserve > 0. A request starts no reload: only the magazine and the counter change. The reserve is untouched. The counter ticks with saturation, from 0 after a rifle shot (also for a fire rate ≤ 0), and is unchanged after a shotgun shot. The ammunition invariant is preserved. |
| Weapon.RunFrames | Weapon.cs:79-126 | Over any run of frames, magazine + shots fired is constant, the reserve never changes and the ammunition invariant holds. |
| Weapon.NoRifleShotWithinFireRate | Weapon.cs:148-176 | While counter + elapsed frame time stays below the fire rate, no rifle shot is fired in any frame of the run. |
| Weapon.RifleShotThenBlocked | Weapon.cs:148-176 | With a positive fire rate, a second rifle fire attempt straight after a shot is refused. |
| WeaponManager.ActivateOnly | WeaponManager.cs:92-96 | After deactivating all weapons and activating k, weapon k alone is active. |
| WeaponManager.InitialiseWeapons | WeaponManager.cs:44-51 | After initialisation, exactly weapon 0 is active. |
| WeaponManager.Start | WeaponManager.cs:17-30 | The start state is consistent: weapon 0 alone, shotgun flag off, no lock. The weapon count and the switch delay are the given ones. |
| WeaponManager.IsShotgunActive | WeaponManager.cs:58-68 | In a consistent loadout, the answer is true iff the shotgun (slot 3) is the one active weapon. |
| WeaponManager.NewSwitchWeapons | WeaponManager.cs:88-125 | While locked, nothing changes. Otherwise the first eligible key in the order 1, 2, 3 wins (2 needs the M4, 3 needs the shotgun). The selected weapon alone becomes active and the shotgun flag says whether it is slot 3. The lock is set with the full delay. If no key is eligible, nothing changes. Consistency is preserved. |
| WeaponManager.CountDown | WeaponManager.cs:75-82 | The countdown only clears the lock, once the remaining delay minus the frame time is ≤ 0. It never touches the selection. |
| WeaponManager.Frame | WeaponManager.cs:75-121 | A frame that starts locked changes neither the selection nor the shotgun flag. Its lock stays on iff the delay has not elapsed. An unlocked frame is exactly the key check, and a fresh lock does not count that frame's time. Consistency is preserved. |
| WeaponManager.RunFrames | WeaponManager.cs:90-121 | Any run of frames keeps exactly one weapon active, with the shotgun flag tracking slot 3. |
| WeaponManager.LockHoldsForDelay | WeaponManager.cs:75-82 | While the time since the switch is below the delay, the selection and shotgun flag stay fixed and the lock stays on, whatever keys are pressed. |
| WeaponManager.LockReleasedWhenDelayElapses | WeaponManager.cs:75-82 | The lock is released in exactly the frame whose accumulated time first reaches the delay, with the selection unchanged up to then. |
| FriendlyAI.ChaseBlock | FriendlyAI.cs:109-124 | Chase is set iff angle < 100 and distance < 16, and cleared otherwise. A facing turn happens iff chasing within 3 units. Attack is untouched. |
| FriendlyAI.NPCSightAsWritten | FriendlyAI.cs:98-145 | On a miss, only the chase block takes effect and Attack keeps its old value. For a ray that hit something, Attack and Chase are never both set. |
| FriendlyAI.MissLeavesBothFlags | FriendlyAI.cs:128-143 | After an attacking frame, a miss with the zombie in view at 5 units leaves both Chase and Attack set. |
| FriendlyAI.NPCSight | FriendlyAI.cs:98-145 | In view within 10 units: seeing the zombie gives (Chase, Attack) = (false, true) with no look-at; anything else gives (true, false) plus a look-at. In every other case Attack is false and Chase is the chase block's. The flags are never both set. Angle ≥ 100 clears both. Attack implies the ray hit the zombie. |
| FriendlyAI.SightAgreesOnHit | FriendlyAI.cs:128-143 | When the ray hits a collider, the corrected table equals the code as written. |
| FriendlyAI.FireGun | FriendlyAI.cs:36-59 | A shot happens iff the counter has reached the fire rate. A shot resets the counter to 0; a refused shot changes nothing. |
| FriendlyAI.Firing | FriendlyAI.cs:168-174 | The counter advances by the frame time only while below the fire rate. The fire rate is untouched. |
| Attack.OnStateUpdate | Attack.cs:21-49 | Without the Attack flag, no shot, no turn and the gun is untouched. With it, the NPC faces the zombie and shoots iff the counter after this frame's tick has reached the fire rate (tick before fire). It backs off iff the distance at the start of the update is < 2. It stops iff the distance measured after any back-off is < nPCMoveAccuracy. |
| Attack.BackOffImpliesStopped | Attack.cs:33-45 | A back-off step moves the NPC at most deltaTime further away. So with a move-accuracy radius ≥ 2 + deltaTime, backing off implies being stopped. |
| Attack.DefaultBackOffImpliesStopped | NPCStateMachine.cs:16-19 | With the default nPCMoveAccuracy of 10 and a frame of at most 8 s, backing off implies being stopped. |
| Attack.BackOffCanLeaveRadius | Attack.cs:33-45 | With a radius of exactly 2, the step back can carry the NPC out of the radius: it backs off and is not stopped. |
| Attack.FiringBeforeFireGunMatters | Attack.cs:23-31 | A counter that reaches the fire rate during this frame shoots in this update. Trying FireGun before Firing would not shoot. |
| Chase.OnStateUpdate | ChaseNew.cs:19-38 | The destination is the zombie's position. The agent is stopped iff distance < 3. |
| Chase.NoHistory | ChaseNew.cs:28-36 | The update ignores the agent's previous destination and stop flag. |
| Chase.MovesAtRadius | ChaseNew.cs:28-36 | At a distance of exactly 3 the agent keeps moving. |
| HeadBob.Insert | FPSController.cs:79-92 | Inserting into a time-sorted list adds exactly the one event and keeps the list sorted. |
| HeadBob.SortByTime | FPSController.cs:86-91 | The sort returns a permutation of the list, sorted ascending by time. |
| HeadBob.SortSorted | FPSController.cs:86-91 | Sorting an already sorted list leaves it unchanged. |
| HeadBob.Initialize | FPSController.cs:62-70 | The curve end time is recorded, both playheads and both previous playheads start at 0. The events, the multipliers, the speed ratio and the base interval are kept. |
| HeadBob.RegisterEventCallback | FPSController.cs:79-92 | The event list gains exactly the new event, as a multiset, and is sorted ascending by time. Nothing else changes. |
| HeadBob.RegisterInserts | FPSController.cs:79-92 | On a sorted list, registering only inserts the new event. Earlier events keep their order. |
| HeadBob.Wrap | FPSController.cs:106-115 | A playhead strictly past the end is reduced by one curve length. One at or before the end, including exactly at the end, is kept. Any value in [0, 2·end] ends up in [0, end]. A result past the end means the input overshot by more than a full cycle. |
| HeadBob.Crosses | FPSController.cs:126-136 | Moving forward, an event fires iff prev < t ≤ cur. After a wrap (prev > cur), it fires iff t > prev or t ≤ cur. |
| HeadBob.FiredFrom | FPSController.cs:119-142 | The fired indices are exactly the events whose axis playhead crossed them. They come in strictly increasing order, so each event fires at most once per call. |
| HeadBob.GetVectorOffset | FPSController.cs:101-153 | X advances by speed·dt/baseInterval and Y by the ratio times that. Each is reduced by one curve length exactly when the advanced value is strictly past the end. Playheads stay in [0, end] for steps within [0, end]. Previous playheads equal current ones afterwards. The fired events are exactly the crossed ones, each once. The offset is the curve at each playhead times its multiplier. |
| HeadBob.FiresIffSwept | FPSController.cs:103-136 | For a step shorter than the curve, an event at a time in (0, end] fires iff the swept arc (prev, prev + step], read around the cycle, contains it. |
| HeadBob.FullCycleStepFiresNothing | FPSController.cs:107-136 | A step of exactly one curve length from a non-zero playhead fires no event. |
| FPSController.Start | FPSController.cs:236-269 | The player starts walking, not moving, not crouching and not jumping, not yet grounded, with no jump latched. The controller height is recorded and the current height is that height. Footsteps start from source 0, nothing is picked up and the pickup panel is as the scene left it, since Start does not touch it. |
| FPSController.StartHeadBob | FPSController.cs:255-258 | The head bob starts with playheads at 0 and the footstep event at 1.5 on the vertical playhead added to a sorted list. The multipliers, the speed ratio and the base interval are kept. |
| FPSController.ClassifyStatus | FPSController.cs:321-346 | The status priority: Landing iff the airborne-to-grounded edge, NotGrounded iff airborne, NotMoving iff steadily grounded with squared speed < 0.01. Otherwise Crouching, then Walking, then Running. |
| FPSController.Update | FPSController.cs:271-352 | A paused frame changes nothing. Crouch toggles between half and full controller height. The jump latch is only ever set while not crouching, and Update never clears it. The status is classified with this frame's crouch state. Landing clears isJumping. The falling timer resets on the ground and grows in the air. No other field changes. |
| FPSController.SelectSpeed | FPSController.cs:369 | Crouching selects the crouch speed. Otherwise walking selects the walk speed and running the run speed. With ordered speeds, the result is between the crouch and run speeds. |
| FPSController.StatusNamesSpeed | FPSController.cs:322-369 | For a grounded, moving player, the movement status is one of Crouching, Walking and Running. It names exactly the speed FixedUpdate picks from the same crouch and walk flags. |
| FPSController.PlayFootStepSound | FPSController.cs:434-441 | While crouching, nothing plays and the source is kept. Otherwise the current source plays and the next one is the other of 0 and 1. |
| FPSController.PlayFootSteps | FPSController.cs:434-441 | A series of footstep callbacks is silent while crouching. Otherwise the sources alternate 0, 1, 0, … from the current one, and the next source continues the pattern. |
| FPSController.BobStep | FPSController.cs:418-428 | At a planar speed ≤ 0.01 the head bob stays put and no footstep plays. Above it, the head bob is exactly one GetVectorOffset step. Unless crouching, one footstep plays per footstep event that step fired. The sources played, followed by the next source, alternate between 0 and 1. While crouching, nothing plays and the source is kept. |
| FPSController.FixedUpdate | FPSController.cs:358-431 | A paused step changes nothing. isWalking is the negation of shift. The chosen speed follows crouch over walk over run. A grounded step with the latch set launches the jump, clears the latch and sets isJumping. A moving player's head bob advances by one GetVectorOffset at the planar speed times the stride (1, or runStepLengthen when running). One footstep plays per footstep event fired, and the sources played, followed by the next source, alternate. Only isWalking, the jump latch, isJumping and the footstep source change. |
| FPSController.OnTriggerEnter | FPSController.cs:448-455 | The pickup panel opens on entering any named trigger. Nothing else changes. |
| FPSController.OnTriggerExit | FPSController.cs:525-533 | The pickup panel closes on leaving any named trigger. Nothing else changes. |
| FPSController.OnTriggerStay | FPSController.cs:463-519 | An item is taken iff E is pressed inside its trigger. Exactly that item's flag is then set and no flag is cleared. The health box or a pickup closes the panel. Otherwise nothing changes. |
| FPSController.Take | FPSController.cs:470-517 | Taking an item sets exactly its own inventory flag. |
| FPSController.PickupFlagsMonotone | FPSController.cs:463-519 | After any run of trigger frames, no flag is lost. A flag is set iff it was set before or some frame pressed E inside that item's trigger. |
| Door.ControlDoor | Door.cs:45-62 | The door stays closed unless the player is within 3 units with the key and presses Q, and it is never reactivated. The panel opens within 3 units with the key, closes beyond 3 or once the door is open, and is otherwise left as it was (e.g. at exactly 3). It only ever opens within 3 units with the key. Opening the door closes the panel in the same frame. |
| Door.OpenedOnlyByKeyAndQ | Door.cs:47-54 | After any run, the door is still closed iff it was closed before and no frame had distance < 3, the key and Q. |
| EndDoor.Start | EndDoor.cs:15 | The level starts incomplete with the end door closed, and the panel as given. |
| EndDoor.EndControlDoor | EndDoor.cs:46-62 | Q within 3 units with the end key completes the level and opens the door. The flag is never cleared. The panel opens within 3 units with the end key, and only then. It closes beyond 3 or once the door is open, and is otherwise left as it was (e.g. at exactly 3). A completed level always has an open end door. |
| EndDoor.RunFrames | EndDoor.cs:46-62 | Over any run, a completed level stays complete and completion implies an open end door. |
| EndDoor.NoEndKeyNoCompletion | EndDoor.cs:48-56 | Without the end key in any frame, an incomplete level never completes. |

## Findings

| source | as written | input that shows it | evidently intended | confidence | as-written member | corrected member |
|---|---|---|---|---|---|---|
| FriendlyAI.cs:128 | The tag of `hit.collider` is read even when the 16-unit ray hit nothing. The NullReferenceException ends NPCSight after the chase block, so Attack keeps last frame's value. | Previous flags (Chase false, Attack true); the ray misses; angle 50, distance 5. Both Chase and Attack end up set. | A miss counts as "not a zombie", like the `tag != "Zombie"` branch. Chase and Attack are then never both set. | medium, not executed | FriendlyAI.NPCSightAsWritten, FriendlyAI.MissLeavesBothFlags | FriendlyAI.NPCSight |

## Left out

- Raycasts, bullet spread, hit particles, bullet holes, muzzle flash, sounds and the ammo text. A shot is modelled only as the event `fired`/`shot`.
- Shotgun.cs pellets: random rotations, RotateTowards and rigidbody forces are randomness and physics. WeaponSway.cs is a transform lerp driven by mouse axes.
- Animator transitions between the NPC's Chase and Attack states belong to the animator controller, which is not part of this model. `Attack.OnStateUpdate` takes the Attack flag that `NPCSight` produces as an input.
- Vector maths: Vector3.Angle and Distance, the Slerp turn, LookAt and Translate. Angle and distance are inputs; turns and back-off are recorded as decisions.
- Player physics: mouse look, CharacterController.Move, the ground sphere-cast, slope projection, gravity and the vertical move direction. Grounded flag and speeds are inputs.
- The flashlight toggle, and the door and pickup panels as UI objects. The panels are only booleans here.
- AnimationCurve.Evaluate is the uninterpreted parameter `curve`. The curve's end time is the input `lastKeyTime`.
- The Unity coroutine scheduler and WaitForSeconds are replaced by the `switchRemaining` countdown.
- The order in which the scripts run within one frame is not modelled. Each script is a separate step function.
- Door.ControlDoor: the door panel is a field of each door here. In the game both doors write the player's single door panel every frame. Whichever door runs later can close the panel the other just opened, e.g. when the player is more than 3 units from the end door. The panel clauses are per-door decisions, not what the player sees. Unity leaves the order of the two scripts undefined, so the model does not choose one.
- EndDoor.EndControlDoor: the same shared-panel caveat as for Door.ControlDoor.
- Weapon.Reload: its caller is not among the modelled scripts, so the model does not say when it runs.
- Weapon.Reload: ammunition is unbounded, so 32-bit overflow of `bulletsPerMag - currentBullets` is not modelled. Within the invariant it cannot happen.
- HeadBob.RegisterEventCallback: List.Sort is unstable, and the model uses a stable insertion sort. Events with equal times may be ordered differently by the source. The model's order is one of the orders the source can produce.
- HeadBob.GetVectorOffset: requires a non-zero baseInterval, where the source's float division would give infinity.
- FPSController.PlayFootStepSound: the list of audio sources is not modelled. Only the index of the source played is.
- WeaponManager.NewSwitchWeapons: requires at least three weapons. The source only indexes slots 1 and 2 inside the key branches, so a shorter list would throw only when that key is pressed. The model does not represent that exception.
- WeaponManager.Start, WeaponManager.Frame, WeaponManager.RunFrames: require at least three weapons, for the same reason. InitialiseWeapons itself needs only one.

=== FILE: attack.dfy ===
/**
 * The Attack state of the NPC's animator (Attack.cs): while the Attack flag is set
 * the NPC faces the zombie and tries to shoot, too close it backs off, and its
 * navigation agent is stopped inside the move-accuracy radius.
 *
 * Distances are inputs; LookAt and Translate are recorded as decisions.  The stop
 * test measures the distance again, after the back-off has moved the NPC, so it
 * takes a second distance, `distanceAfter`, which equals `distance` when the NPC
 * did not back off.  The move-accuracy radius is a parameter whose default is 10
 * (NPCStateMachine.cs:19).
 */
module Attack {
  import FireTimer
  import opened FriendlyAI

  /** Back-off radius (Attack.cs:33). */
  const BackOffRange: real := 2.0

  /** Default nPCMoveAccuracy of the NPC state behaviours. */
  const DefaultMoveAccuracy: real := 10.0

  /** What one update of the Attack state decides. */
  datatype AttackStep = AttackStep(
    gunner: Gunner,
    shot: bool,       // FireGun fired
    lookAt: bool,     // faced the zombie
    backOff: bool,    // translated backwards
    stopped: bool)    // agent.isStopped

  /**
   * OnStateUpdate: with the Attack flag, one frame of the counter and then a fire
   * attempt, so a counter that reaches the fire rate in this frame shoots at once.
   * The back-off test uses the distance at the start of the update, the stop test
   * the distance after the back-off.
   */
  function OnStateUpdate(attackFlag: bool, g: Gunner, distance: real, distanceAfter: real,
                         moveAccuracy: real, dt: real): (r: AttackStep)
    ensures !attackFlag ==> !r.shot && !r.lookAt && r.gunner == g
    ensures attackFlag ==> r.lookAt
    ensures r.shot <==> attackFlag && FireTimer.Advance(g.fireTimer, g.fireRate, dt) >= g.fireRate
    ensures r.shot ==> r.gunner == g.(fireTimer := 0.0)
    ensures attackFlag && !r.shot ==> r.gunner == g.(fireTimer := FireTimer.Advance(g.fireTimer, g.fireRate, dt))
    ensures r.backOff <==> distance < BackOffRange
    ensures r.backOff ==> (r.stopped <==> distanceAfter < moveAccuracy)
    ensures !r.backOff ==> (r.stopped <==> distance < moveAccuracy)
  {
    var fire := if attackFlag then FireGun(Firing(g, dt)) else GunShot(g, false);
    var backOff := distance < BackOffRange;
    var measured := if backOff then distanceAfter else distance;
    AttackStep(fire.gunner, fire.shot, attackFlag, backOff, measured < moveAccuracy)
  }

  /**
   * Backing off moves the NPC by deltaTime units, so the second measurement is at
   * most that much larger.  With a move-accuracy radius that covers the back-off
   * radius plus one such step, backing off implies stopped.
   */
  lemma BackOffImpliesStopped(attackFlag: bool, g: Gunner, distance: real, distanceAfter: real,
                              moveAccuracy: real, dt: real)
    requires distanceAfter <= distance + dt
    requires moveAccuracy >= BackOffRange + dt
    ensures OnStateUpdate(attackFlag, g, distance, distanceAfter, moveAccuracy, dt).backOff ==>
            OnStateUpdate(attackFlag, g, distance, distanceAfter, moveAccuracy, dt).stopped
  {
  }

  /** The default radius satisfies the condition above for any frame shorter than 8 seconds. */
  lemma DefaultBackOffImpliesStopped(attackFlag: bool, g: Gunner, distance: real, distanceAfter: real, dt: real)
    requires distanceAfter <= distance + dt
    requires dt <= DefaultMoveAccuracy - BackOffRange
    ensures OnStateUpdate(attackFlag, g, distance, distanceAfter, DefaultMoveAccuracy, dt).backOff ==>
            OnStateUpdate(attackFlag, g, distance, distanceAfter, DefaultMoveAccuracy, dt).stopped
  {
    BackOffImpliesStopped(attackFlag, g, distance, distanceAfter, DefaultMoveAccuracy, dt);
  }

  /**
   * With a radius equal to the back-off radius, the step back can carry the NPC
   * out of the radius in the same update: it backs off and is not stopped.
   */
  lemma BackOffCanLeaveRadius()
    ensures var r := OnStateUpdate(false, Gunner(1.0, 0.0), 1.99, 2.01, BackOffRange, 0.05);
            r.backOff && !r.stopped
  {
  }

  /**
   * The order matters: a counter just below the fire rate shoots in this update,
   * which it would not if FireGun were tried before Firing.
   */
  lemma FiringBeforeFireGunMatters()
    ensures var g := Gunner(0.1, 0.05);
            && OnStateUpdate(true, g, 5.0, 5.0, DefaultMoveAccuracy, 0.06).shot
            && !FireGun(g).shot
  {
  }
}

=== FILE: chase.dfy ===
/**
 * The Chase state of the NPC's animator (ChaseNew.cs): every update heads the
 * navigation agent for the zombie and stops it inside a fixed radius.  Distance and
 * the zombie's position are inputs; path finding is left out.
 */
module Chase {

  /** Stop radius (ChaseNew.cs:28). */
  const StopRange: real := 3.0

  datatype Vec3 = Vec3(x: real, y: real, z: real)

  /** The parts of the NavMeshAgent the state writes. */
  datatype NavAgent = NavAgent(destination: Vec3, isStopped: bool)

  /** OnStateUpdate: destination is the opponent, stopped strictly inside the radius. */
  function OnStateUpdate(agent: NavAgent, opponent: Vec3, distance: real): (r: NavAgent)
    ensures r.destination == opponent
    ensures r.isStopped <==> distance < StopRange
  {
    agent.(destination := opponent, isStopped := distance < StopRange)
  }

  /** The decision depends on nothing the agent remembers from earlier frames. */
  lemma NoHistory(a: NavAgent, b: NavAgent, opponent: Vec3, distance: real)
    ensures OnStateUpdate(a, opponent, distance) == OnStateUpdate(b, opponent, distance)
  {
  }

  /** At exactly the radius the agent keeps moving. */
  lemma MovesAtRadius(agent: NavAgent, opponent: Vec3)
    ensures !OnStateUpdate(agent, opponent, StopRange).isStopped
  {
  }
}

=== FILE: door.dfy ===
/**
 * The locked door (Door.cs): within 3 units and holding the key, the player sees
 * the door panel and Q opens the door (deactivates it for good).  The panel closes
 * beyond 3 units or once the door is open.  The distance is an input; the key
 * flag is FPSController.KeyEnabled; the panel is the controller's door panel.
 */
module Door {

  /** Interaction radius (Door.cs:47, 58). */
  const Range: real := 3.0

  datatype DoorState = DoorState(doorActive: bool, panelOpen: bool)

  /** The frame opens the door: in range, key held, Q pressed. */
  predicate Opens(distance: real, keyEnabled: bool, qPressed: bool)
  {
    distance < Range && keyEnabled && qPressed
  }

  /** ControlDoor: open the panel (and maybe the door) in range with the key, then close the panel if out of range or open. */
  function ControlDoor(s: DoorState, distance: real, keyEnabled: bool, qPressed: bool): (r: DoorState)
    ensures r.doorActive <==> s.doorActive && !Opens(distance, keyEnabled, qPressed)
    ensures distance > Range || !r.doorActive ==> !r.panelOpen
    ensures distance < Range && keyEnabled && r.doorActive ==> r.panelOpen
    ensures distance <= Range && !(distance < Range && keyEnabled) && r.doorActive ==> r.panelOpen == s.panelOpen
    ensures r.panelOpen ==> distance <= Range && r.doorActive
    ensures r.panelOpen && !s.panelOpen ==> distance < Range && keyEnabled
  {
    var inReach := distance < Range && keyEnabled;
    var active := if inReach && qPressed then false else s.doorActive;
    var panel := if inReach then true else s.panelOpen;
    DoorState(active, if distance > Range || !active then false else panel)
  }

  /** A run of frames: distances, key flags and Q presses. */
  function RunFrames(s: DoorState, distances: seq<real>, keys: seq<bool>, qs: seq<bool>): (r: DoorState)
    requires |distances| == |keys| == |qs|
    decreases |distances|
  {
    if |distances| == 0 then s
    else RunFrames(ControlDoor(s, distances[0], keys[0], qs[0]), distances[1..], keys[1..], qs[1..])
  }

  /**
   * The door is one-way: after any run it is still closed (active) exactly when it
   * was closed before and no frame opened it.
   */
  lemma {:induction false} OpenedOnlyByKeyAndQ(s: DoorState, distances: seq<real>, keys: seq<bool>, qs: seq<bool>)
    requires |distances| == |keys| == |qs|
    decreases |distances|
    ensures RunFrames(s, distances, keys, qs).doorActive <==>
            s.doorActive && forall i :: 0 <= i < |distances| ==> !Opens(distances[i], keys[i], qs[i])
  {
    if |distances| > 0 {
      var s1 := ControlDoor(s, distances[0], keys[0], qs[0]);
      OpenedOnlyByKeyAndQ(s1, distances[1..], keys[1..], qs[1..]);
      assert forall i :: 1 <= i < |distances| ==>
        distances[i] == distances[1..][i - 1] && keys[i] == keys[1..][i - 1] && qs[i] == qs[1..][i - 1];
    }
  }
}

=== FILE: end_door.dfy ===
/**
 * The level's final door (EndDoor.cs): the same proximity-plus-key gate as the
 * locked door, with the end key, and opening it completes the level.  The
 * level-complete flag is never cleared.
 */
module EndDoor {
  import Door

  datatype EndDoorState = EndDoorState(endDoorActive: bool, panelOpen: bool, isLevelComplete: bool)

  /** Start: the door is closed and the level not complete. */
  function Start(panelOpen: bool): (s: EndDoorState)
    ensures s.endDoorActive && !s.isLevelComplete && Invariant(s)
    ensures s.panelOpen == panelOpen
  {
    EndDoorState(true, panelOpen, false)
  }

  /** A completed level has an open end door. */
  predicate Invariant(s: EndDoorState)
  {
    s.isLevelComplete ==> !s.endDoorActive
  }

  /** EndControlDoor: the door gate, and Q in range with the end key completes the level. */
  function EndControlDoor(s: EndDoorState, distance: real, endKeyEnabled: bool, qPressed: bool): (r: EndDoorState)
    ensures r.isLevelComplete <==> s.isLevelComplete || Door.Opens(distance, endKeyEnabled, qPressed)
    ensures r.endDoorActive <==> s.endDoorActive && !Door.Opens(distance, endKeyEnabled, qPressed)
    ensures Door.Opens(distance, endKeyEnabled, qPressed) ==> r.isLevelComplete && !r.endDoorActive
    ensures distance > Door.Range || !r.endDoorActive ==> !r.panelOpen
    ensures distance < Door.Range && endKeyEnabled && r.endDoorActive ==> r.panelOpen
    ensures distance <= Door.Range && !(distance < Door.Range && endKeyEnabled) && r.endDoorActive ==>
              r.panelOpen == s.panelOpen
    ensures r.panelOpen ==> distance <= Door.Range && r.endDoorActive
    ensures r.panelOpen && !s.panelOpen ==> distance < Door.Range && endKeyEnabled
    ensures Invariant(s) ==> Invariant(r)
  {
    var d := Door.ControlDoor(Door.DoorState(s.endDoorActive, s.panelOpen), distance, endKeyEnabled, qPressed);
    var complete := if distance < Door.Range && endKeyEnabled && qPressed then true else s.isLevelComplete;
    EndDoorState(d.doorActive, d.panelOpen, complete)
  }

  /** A run of frames. */
  function RunFrames(s: EndDoorState, distances: seq<real>, keys: seq<bool>, qs: seq<bool>): (r: EndDoorState)
    requires |distances| == |keys| == |qs|
    decreases |distances|
    ensures s.isLevelComplete ==> r.isLevelComplete
    ensures Invariant(s) ==> Invariant(r)
  {
    if |distances| == 0 then s
    else RunFrames(EndControlDoor(s, distances[0], keys[0], qs[0]), distances[1..], keys[1..], qs[1..])
  }

  /** Without the end key in any frame, an incomplete level stays incomplete. */
  lemma {:induction false} NoEndKeyNoCompletion(s: EndDoorState, distances: seq<real>, keys: seq<bool>, qs: seq<bool>)
    requires |distances| == |keys| == |qs|
    requires !s.isLevelComplete
    requires forall i :: 0 <= i < |keys| ==> !keys[i]
    decreases |distances|
    ensures !RunFrames(s, distances, keys, qs).isLevelComplete
  {
    if |distances| > 0 {
      var s1 := EndControlDoor(s, distances[0], keys[0], qs[0]);
      assert forall i :: 0 <= i < |keys[1..]| ==> keys[1..][i] == keys[i + 1];
      NoEndKeyNoCompletion(s1, distances[1..], keys[1..], qs[1..]);
    }
  }
}

=== FILE: fire_timer.dfy ===
/**
 * The shot-delay counter that both the player's weapons and the friendly NPC keep:
 * it grows by the frame time while it is below the fire rate and then stays put
 * until a shot resets it to zero.
 */
module FireTimer {
  import opened FrameTime

  /** One frame of the counter (Weapon.cs:122-125, FriendlyAI.cs:168-174). */
  function Advance(timer: real, fireRate: real, dt: real): (r: real)
    ensures timer >= fireRate ==> r == timer
    ensures timer < fireRate ==> r - timer == dt
    ensures dt >= 0.0 ==> r >= timer
  {
    if timer < fireRate then timer + dt else timer
  }

  /** The counter after a run of frames with no shot in between. */
  function AdvanceAll(timer: real, fireRate: real, dts: seq<real>): real
    decreases |dts|
  {
    if |dts| == 0 then timer else AdvanceAll(Advance(timer, fireRate, dts[0]), fireRate, dts[1..])
  }

  /**
   * A counter is ready to shoot exactly when the frame time accumulated since it
   * was last reset reaches the fire rate: before that it holds the exact elapsed
   * time, afterwards it is at least the fire rate.
   */
  lemma {:induction false} ReadyExactlyWhenElapsed(timer: real, fireRate: real, dts: seq<real>)
    requires NonNegative(dts)
    decreases |dts|
    ensures timer + Sum(dts) < fireRate ==> AdvanceAll(timer, fireRate, dts) == timer + Sum(dts)
    ensures timer + Sum(dts) >= fireRate ==> AdvanceAll(timer, fireRate, dts) >= fireRate
  {
    if |dts| > 0 {
      var rest := dts[1..];
      assert NonNegative(rest) by {
        forall i | 0 <= i < |rest| ensures rest[i] >= 0.0 {
          assert rest[i] == dts[i + 1];
        }
      }
      SumNonNegative(rest);
      ReadyExactlyWhenElapsed(Advance(timer, fireRate, dts[0]), fireRate, rest);
    }
  }
}

=== FILE: fps_controller.dfy ===
/**
 * The discrete logic of the player controller (FPSController in FPSController.cs):
 * the movement status, the crouch toggle and jump latch of Update, the speed
 * choice, jump launch and head-bob footsteps of FixedUpdate, the alternating
 * footstep sources and the inventory flags set by pickups.
 *
 * Engine readings are inputs: whether the character controller is grounded, its
 * squared and planar speed, button edges, Time.timeScale and the frame time.  Mouse
 * look, CharacterController.Move, the ground sphere-cast, gravity, the flashlight,
 * audio playback and UI panels other than the pickup panel are left out.
 */
module FPSController {
  import opened Optional
  import HeadBob

  datatype MoveStatus = NotMoving | Crouching | Walking | Running | NotGrounded | Landing

  /** Inspector-assigned speeds. */
  datatype Speeds = Speeds(walkingSpeed: real, runningSpeed: real, crouchingSpeed: real, runStepLengthen: real)

  /** What the player has picked up. */
  datatype Inventory = Inventory(m4Enabled: bool, shotgunEnabled: bool, keyEnabled: bool, endKeyEnabled: bool)

  datatype Player = Player(
    speeds: Speeds,
    controllerHeight: real,   // height of the character controller at start
    height: real,             // current height
    jumpButtonPressed: bool,  // the jump latch
    previouslyGrounded: bool,
    isWalking: bool,
    isJumping: bool,
    isCrouching: bool,
    fallingTimer: real,
    movementStatus: MoveStatus,
    audioToUse: nat,          // footstep source to play next
    inventory: Inventory,
    pickUpPanelOpen: bool)

  /** Squared-speed threshold below which a grounded player is not moving (FPSController.cs:332). */
  const StillSqrSpeed: real := 0.01

  /** Planar-speed threshold above which the head bobs (FPSController.cs:421). */
  const BobSpeed: real := 0.01

  /** Time of the footstep event on the vertical playhead (FPSController.cs:258). */
  const FootStepTime: real := 1.5

  /** The callback number of PlayFootStepSound. */
  const FootStepCallback: nat := 0

  /**
   * Start: walking, not moving, nothing picked up, footsteps from source 0.  Start
   * does not touch the pickup panel, so it is as the scene left it.
   */
  function Start(speeds: Speeds, controllerHeight: real, pickUpPanelOpen: bool): (p: Player)
    ensures p.movementStatus == NotMoving && p.isWalking && !p.isCrouching && !p.jumpButtonPressed
    ensures p.height == controllerHeight && p.fallingTimer == 0.0 && p.audioToUse == 0
    ensures p.inventory == Inventory(false, false, false, false)
    ensures p.controllerHeight == controllerHeight && !p.isJumping && !p.previouslyGrounded
    ensures p.speeds == speeds && p.pickUpPanelOpen == pickUpPanelOpen
  {
    Player(speeds, controllerHeight, controllerHeight, false, false, true, false, false,
           0.0, NotMoving, 0, Inventory(false, false, false, false), pickUpPanelOpen)
  }

  /** Start, for the head bob: initialise it and register the footstep on the vertical playhead. */
  function StartHeadBob(b: HeadBob.Bob, lastKeyTime: real): (r: HeadBob.Bob)
    ensures r.x == 0.0 && r.y == 0.0 && HeadBob.Synced(r) && r.curveEndTime == lastKeyTime
    ensures HeadBob.SortedByTime(r.events)
    ensures multiset(r.events) ==
            multiset(b.events) + multiset{HeadBob.BobEvent(FootStepTime, FootStepCallback, HeadBob.Vertical)}
    ensures r.(x := b.x, y := b.y, prevX := b.prevX, prevY := b.prevY, curveEndTime := b.curveEndTime,
               events := b.events) == b
  {
    HeadBob.RegisterEventCallback(HeadBob.Initialize(b, lastKeyTime), FootStepTime, FootStepCallback, HeadBob.Vertical)
  }

  /**
   * The movement status, by priority: landing on the frame the controller touches
   * ground, then airborne, then standing still, then crouching, walking, running.
   */
  function ClassifyStatus(previouslyGrounded: bool, grounded: bool, sqrSpeed: real,
                          crouching: bool, walking: bool): (m: MoveStatus)
    ensures m == Landing <==> !previouslyGrounded && grounded
    ensures m == NotGrounded <==> !grounded
    ensures m == NotMoving <==> previouslyGrounded && grounded && sqrSpeed < StillSqrSpeed
    ensures m == Crouching <==> previouslyGrounded && grounded && sqrSpeed >= StillSqrSpeed && crouching
    ensures m == Walking <==> previouslyGrounded && grounded && sqrSpeed >= StillSqrSpeed && !crouching && walking
    ensures m == Running <==> previouslyGrounded && grounded && sqrSpeed >= StillSqrSpeed && !crouching && !walking
  {
    if !previouslyGrounded && grounded then Landing
    else if !grounded then NotGrounded
    else if sqrSpeed < StillSqrSpeed then NotMoving
    else if crouching then Crouching
    else if walking then Walking
    else Running
  }

  /** Engine readings for one Update. */
  datatype UpdateInput = UpdateInput(
    timeScale: real,
    grounded: bool,
    sqrSpeed: real,     // characterController.velocity.sqrMagnitude
    jumpDown: bool,
    crouchDown: bool,
    dt: real)

  /**
   * Update: falling timer, jump latch (only while not crouching), crouch toggle
   * with the matching controller height, then the movement status and the landing
   * reset.  A paused game (time scale 0) changes nothing.
   */
  function Update(p: Player, input: UpdateInput): (r: Player)
    ensures input.timeScale == 0.0 ==> r == p
    ensures input.timeScale != 0.0 ==>
              && (r.isCrouching <==> (p.isCrouching != input.crouchDown))
              && (input.crouchDown ==> r.height == (if r.isCrouching then p.controllerHeight / 2.0 else p.controllerHeight))
              && (!input.crouchDown ==> r.height == p.height)
              && (p.jumpButtonPressed ==> r.jumpButtonPressed)
              && (r.jumpButtonPressed && !p.jumpButtonPressed ==> input.jumpDown && !p.isCrouching)
              && (!p.jumpButtonPressed && !p.isCrouching ==> r.jumpButtonPressed == input.jumpDown)
              && r.movementStatus == ClassifyStatus(p.previouslyGrounded, input.grounded, input.sqrSpeed,
                                                    r.isCrouching, p.isWalking)
              && (r.movementStatus == Landing ==> !r.isJumping)
              && (r.movementStatus != Landing ==> r.isJumping == p.isJumping)
              && r.previouslyGrounded == input.grounded
              && r.fallingTimer == (if input.grounded then 0.0 else p.fallingTimer + input.dt)
    ensures r.inventory == p.inventory && r.audioToUse == p.audioToUse && r.isWalking == p.isWalking
    ensures r.(fallingTimer := p.fallingTimer, jumpButtonPressed := p.jumpButtonPressed, isCrouching := p.isCrouching,
               height := p.height, movementStatus := p.movementStatus, isJumping := p.isJumping,
               previouslyGrounded := p.previouslyGrounded) == p
  {
    if input.timeScale == 0.0 then p else Unpaused(p, input)
  }

  /** The Update of a running game: every field Update writes, and nothing else. */
  function Unpaused(p: Player, input: UpdateInput): (r: Player)
    ensures r.isCrouching <==> (p.isCrouching != input.crouchDown)
    ensures input.crouchDown ==> r.height == (if r.isCrouching then p.controllerHeight / 2.0 else p.controllerHeight)
    ensures !input.crouchDown ==> r.height == p.height
    ensures p.jumpButtonPressed ==> r.jumpButtonPressed
    ensures r.jumpButtonPressed && !p.jumpButtonPressed ==> input.jumpDown && !p.isCrouching
    ensures !p.jumpButtonPressed && !p.isCrouching ==> r.jumpButtonPressed == input.jumpDown
    ensures r.movementStatus == ClassifyStatus(p.previouslyGrounded, input.grounded, input.sqrSpeed,
                                               r.isCrouching, p.isWalking)
    ensures r.movementStatus == Landing ==> !r.isJumping
    ensures r.movementStatus != Landing ==> r.isJumping == p.isJumping
    ensures r.previouslyGrounded == input.grounded
    ensures r.fallingTimer == (if input.grounded then 0.0 else p.fallingTimer + input.dt)
    ensures r.(fallingTimer := p.fallingTimer, jumpButtonPressed := p.jumpButtonPressed, isCrouching := p.isCrouching,
               height := p.height, movementStatus := p.movementStatus, isJumping := p.isJumping,
               previouslyGrounded := p.previouslyGrounded) == p
  {
    var fallingTimer := if input.grounded then 0.0 else p.fallingTimer + input.dt;
    var jump := if !p.jumpButtonPressed && !p.isCrouching then input.jumpDown else p.jumpButtonPressed;
    var crouching := if input.crouchDown then !p.isCrouching else p.isCrouching;
    var height := if !input.crouchDown then p.height
                  else if crouching then p.controllerHeight / 2.0 else p.controllerHeight;
    var status := ClassifyStatus(p.previouslyGrounded, input.grounded, input.sqrSpeed, crouching, p.isWalking);
    var jumping := if status == Landing then false else p.isJumping;
    p.(fallingTimer := fallingTimer, jumpButtonPressed := jump, isCrouching := crouching, height := height,
       movementStatus := status, isJumping := jumping, previouslyGrounded := input.grounded)
  }

  /** The ground speed: crouching over walking over running. */
  function SelectSpeed(s: Speeds, crouching: bool, walking: bool): (v: real)
    ensures crouching ==> v == s.crouchingSpeed
    ensures !crouching && walking ==> v == s.walkingSpeed
    ensures !crouching && !walking ==> v == s.runningSpeed
    ensures s.crouchingSpeed <= s.walkingSpeed <= s.runningSpeed ==> s.crouchingSpeed <= v <= s.runningSpeed
  {
    if crouching then s.crouchingSpeed else if walking then s.walkingSpeed else s.runningSpeed
  }

  /**
   * For a grounded, moving player, the movement status names the speed FixedUpdate
   * picks from the same crouch and walk flags.
   */
  lemma StatusNamesSpeed(s: Speeds, sqrSpeed: real, crouching: bool, walking: bool)
    requires sqrSpeed >= StillSqrSpeed
    ensures var m := ClassifyStatus(true, true, sqrSpeed, crouching, walking);
            && (m == Crouching ==> SelectSpeed(s, crouching, walking) == s.crouchingSpeed)
            && (m == Walking ==> SelectSpeed(s, crouching, walking) == s.walkingSpeed)
            && (m == Running ==> SelectSpeed(s, crouching, walking) == s.runningSpeed)
            && (m == Crouching || m == Walking || m == Running)
  {
  }

  /** The factor on the planar speed that drives the head bob: running lengthens the stride. */
  function Stride(s: Speeds, crouching: bool, walking: bool): real
  {
    if crouching || walking then 1.0 else s.runStepLengthen
  }

  /** Result of one PlayFootStepSound call. */
  datatype Footstep = Footstep(next: nat, played: Option<nat>)

  /** PlayFootStepSound: silent while crouching, otherwise play the current source and swap to the other. */
  function PlayFootStepSound(crouching: bool, audioToUse: nat): (f: Footstep)
    ensures crouching ==> f == Footstep(audioToUse, None)
    ensures !crouching ==> f.played == Some(audioToUse) && f.next <= 1 && (f.next == 0 <==> audioToUse != 0)
  {
    if crouching then Footstep(audioToUse, None)
    else Footstep(if audioToUse == 0 then 1 else 0, Some(audioToUse))
  }

  /** The sources played alternate between 0 and 1, starting from `first`. */
  predicate Alternating(first: nat, played: seq<nat>)
  {
    forall i :: 0 <= i < |played| ==> played[i] == (first + i) % 2
  }

  /** With no footstep played, the next source is the current one. */
  lemma NoFootstepKeepsSource(audioToUse: nat)
    ensures audioToUse <= 1 ==> Alternating(audioToUse, [audioToUse])
  {
  }

  /** A source that continues the alternation can be appended to it. */
  lemma AlternatingExtend(first: nat, played: seq<nat>, next: nat)
    requires Alternating(first, played)
    requires next == (first + |played|) % 2
    ensures Alternating(first, played + [next])
  {
  }

  /** The sources played by n footstep callbacks in a row, and the source to use next. */
  datatype FootstepRun = FootstepRun(next: nat, played: seq<nat>)

  /** n footstep callbacks in a row: silent while crouching, otherwise alternating between sources 0 and 1. */
  function PlayFootSteps(crouching: bool, audioToUse: nat, n: nat): (r: FootstepRun)
    decreases n
    ensures crouching ==> r == FootstepRun(audioToUse, [])
    ensures !crouching ==> |r.played| == n
    ensures !crouching && audioToUse <= 1 ==>
              && Alternating(audioToUse, r.played)
              && r.next == (audioToUse + n) % 2
              && r.next == (audioToUse + |r.played|) % 2
  {
    if n == 0 then FootstepRun(audioToUse, [])
    else
      var f := PlayFootStepSound(crouching, audioToUse);
      var rest := PlayFootSteps(crouching, f.next, n - 1);
      match f.played
      case None => rest
      case Some(source) =>
        FootstepRun(rest.next, [source] + rest.played)
  }

  /** How many of the fired event indices name an event that runs a given callback. */
  function CountCallbacks(events: seq<HeadBob.BobEvent>, fired: seq<nat>, callback: nat): nat
  {
    if |fired| == 0 then 0
    else (if fired[0] < |events| && events[fired[0]].callback == callback then 1 else 0)
         + CountCallbacks(events, fired[1..], callback)
  }

  /** Engine readings for one FixedUpdate. */
  datatype FixedInput = FixedInput(
    timeScale: real,
    shiftHeld: bool,
    grounded: bool,
    planarSpeed: real,  // horizontal speed of the character controller after Move
    dt: real)

  /** Result of one FixedUpdate. */
  datatype FixedStep = FixedStep(
    player: Player,
    bob: HeadBob.Bob,
    speed: real,          // ground speed chosen for the move (0 while paused)
    launched: bool,       // the jump speed was applied
    footsteps: seq<nat>)  // sources played by footstep callbacks

  /** The walking flag of this step, and the jump launch that clears the latch on a grounded step. */
  function Launch(p: Player, input: FixedInput): Player
  {
    var launched := input.grounded && p.jumpButtonPressed;
    p.(isWalking := !input.shiftHeld,
       jumpButtonPressed := if launched then false else p.jumpButtonPressed,
       isJumping := if launched then true else p.isJumping)
  }

  /** The speed that drives the head bob: the planar speed times the stride. */
  function BobSpeedFor(p: Player, input: FixedInput): real
  {
    input.planarSpeed * Stride(p.speeds, p.isCrouching, !input.shiftHeld)
  }

  /**
   * FixedUpdate: walking unless shift is held, the ground speed, the jump launch
   * that clears the latch on a grounded step, and, when the player moves, one
   * head-bob step whose footstep events play alternating sources.
   */
  function FixedUpdate(p: Player, b: HeadBob.Bob, input: FixedInput, curve: real -> real): (s: FixedStep)
    requires b.baseInterval != 0.0
    ensures input.timeScale == 0.0 ==> s == FixedStep(p, b, 0.0, false, [])
    ensures input.timeScale != 0.0 ==>
              && s.player.isWalking == !input.shiftHeld
              && s.speed == SelectSpeed(p.speeds, p.isCrouching, !input.shiftHeld)
              && (s.launched <==> input.grounded && p.jumpButtonPressed)
              && (s.launched ==> !s.player.jumpButtonPressed && s.player.isJumping)
              && (!s.launched ==> s.player.jumpButtonPressed == p.jumpButtonPressed && s.player.isJumping == p.isJumping)
    ensures p.isCrouching ==> s.footsteps == [] && s.player.audioToUse == p.audioToUse
    ensures !p.isCrouching && p.audioToUse <= 1 ==> Alternating(p.audioToUse, s.footsteps + [s.player.audioToUse])
    ensures input.planarSpeed <= BobSpeed ==> s.bob == b && s.footsteps == []
    ensures input.timeScale != 0.0 && input.planarSpeed > BobSpeed ==>
              var step := HeadBob.GetVectorOffset(b, BobSpeedFor(p, input), input.dt, curve);
              && s.bob == step.bob
              && (!p.isCrouching ==> |s.footsteps| == CountCallbacks(b.events, step.fired, FootStepCallback))
    ensures s.player.inventory == p.inventory && s.player.isCrouching == p.isCrouching
    ensures s.player.(isWalking := p.isWalking, jumpButtonPressed := p.jumpButtonPressed, isJumping := p.isJumping,
                      audioToUse := p.audioToUse) == p
    ensures s.bob.events == b.events
  {
    if input.timeScale == 0.0 then
      NoFootstepKeepsSource(p.audioToUse);
      FixedStep(p, b, 0.0, false, [])
    else
      var speed := SelectSpeed(p.speeds, p.isCrouching, !input.shiftHeld);
      var launched := input.grounded && p.jumpButtonPressed;
      var bobbed := BobStep(p.isCrouching, p.audioToUse, b, input.planarSpeed, BobSpeedFor(p, input), input.dt, curve);
      FixedStep(Launch(p, input).(audioToUse := bobbed.audioToUse), bobbed.bob, speed, launched, bobbed.footsteps)
  }

  /** Result of the head-bob part of FixedUpdate: the next footstep source, the head bob, the sources played. */
  datatype BobOutcome = BobOutcome(audioToUse: nat, bob: HeadBob.Bob, footsteps: seq<nat>)

  /**
   * The head-bob part of FixedUpdate: while the player moves (planar speed above
   * 0.01), one head-bob step at `bobSpeed`, the planar speed times the stride,
   * whose footstep events play alternating sources.
   */
  function BobStep(crouching: bool, audioToUse: nat, b: HeadBob.Bob, planarSpeed: real, bobSpeed: real,
                   dt: real, curve: real -> real): (r: BobOutcome)
    requires b.baseInterval != 0.0
    ensures planarSpeed > BobSpeed ==>
              var step := HeadBob.GetVectorOffset(b, bobSpeed, dt, curve);
              && r.bob == step.bob
              && (!crouching ==> |r.footsteps| == CountCallbacks(b.events, step.fired, FootStepCallback))
    ensures crouching ==> r.footsteps == [] && r.audioToUse == audioToUse
    ensures !crouching && audioToUse <= 1 ==> Alternating(audioToUse, r.footsteps + [r.audioToUse])
    ensures planarSpeed <= BobSpeed ==> r.bob == b && r.footsteps == []
    ensures r.bob.events == b.events
  {
    if planarSpeed > BobSpeed then Stepped(crouching, audioToUse, HeadBob.GetVectorOffset(b, bobSpeed, dt, curve), b.events)
    else
      NoFootstepKeepsSource(audioToUse);
      BobOutcome(audioToUse, b, [])
  }

  /** The footsteps of one head-bob step: one PlayFootStepSound per footstep event it fired. */
  function Stepped(crouching: bool, audioToUse: nat, step: HeadBob.BobStep, events: seq<HeadBob.BobEvent>): (r: BobOutcome)
    ensures r.bob == step.bob
    ensures !crouching ==> |r.footsteps| == CountCallbacks(events, step.fired, FootStepCallback)
    ensures crouching ==> r.footsteps == [] && r.audioToUse == audioToUse
    ensures !crouching && audioToUse <= 1 ==> Alternating(audioToUse, r.footsteps + [r.audioToUse])
  {
    var steps := PlayFootSteps(crouching, audioToUse, CountCallbacks(events, step.fired, FootStepCallback));
    assert !crouching && audioToUse <= 1 ==> Alternating(audioToUse, steps.played + [steps.next]) by {
      if !crouching && audioToUse <= 1 {
        AlternatingExtend(audioToUse, steps.played, steps.next);
      }
    }
    BobOutcome(steps.next, step.bob, steps.played)
  }

  /** Names of the trigger colliders the player reacts to. */
  datatype ColliderName = M4Pickup | ShotgunPickup | HPBox | Key | EndKey | Other

  /** The colliders whose pickup sets an inventory flag. */
  predicate IsItem(name: ColliderName)
  {
    name == M4Pickup || name == ShotgunPickup || name == Key || name == EndKey
  }

  /** The inventory flag an item sets. */
  function Has(inv: Inventory, name: ColliderName): bool
  {
    match name
    case M4Pickup => inv.m4Enabled
    case ShotgunPickup => inv.shotgunEnabled
    case Key => inv.keyEnabled
    case EndKey => inv.endKeyEnabled
    case _ => false
  }

  /** Every flag of `before` is also set in `after`. */
  predicate Includes(after: Inventory, before: Inventory)
  {
    && (before.m4Enabled ==> after.m4Enabled)
    && (before.shotgunEnabled ==> after.shotgunEnabled)
    && (before.keyEnabled ==> after.keyEnabled)
    && (before.endKeyEnabled ==> after.endKeyEnabled)
  }

  /** OnTriggerEnter: the pickup panel opens for every named collider. */
  function OnTriggerEnter(p: Player, other: ColliderName): (r: Player)
    ensures r.pickUpPanelOpen <==> other != Other || p.pickUpPanelOpen
    ensures r.(pickUpPanelOpen := p.pickUpPanelOpen) == p
  {
    if other != Other then p.(pickUpPanelOpen := true) else p
  }

  /** OnTriggerExit: the pickup panel closes when leaving a named collider. */
  function OnTriggerExit(p: Player, other: ColliderName): (r: Player)
    ensures r.pickUpPanelOpen <==> other == Other && p.pickUpPanelOpen
    ensures r.(pickUpPanelOpen := p.pickUpPanelOpen) == p
  {
    if other != Other then p.(pickUpPanelOpen := false) else p
  }

  /** Result of OnTriggerStay: the player and whether the touched item was taken (deactivated). */
  datatype Stay = Stay(player: Player, taken: bool)

  /**
   * OnTriggerStay: E inside an item's trigger takes it, sets its flag and closes
   * the pickup panel; the health box only closes the panel.  No flag is cleared.
   */
  function OnTriggerStay(p: Player, other: ColliderName, eDown: bool): (s: Stay)
    ensures s.taken <==> IsItem(other) && eDown
    ensures forall name :: Has(s.player.inventory, name) <==> Has(p.inventory, name) || (s.taken && name == other)
    ensures Includes(s.player.inventory, p.inventory)
    ensures other == HPBox || s.taken ==> !s.player.pickUpPanelOpen
    ensures !(other == HPBox || s.taken) ==> s.player == p
    ensures s.player.(inventory := p.inventory, pickUpPanelOpen := p.pickUpPanelOpen) == p
  {
    var p1 := if other == HPBox then p.(pickUpPanelOpen := false) else p;
    if eDown && IsItem(other) then
      Stay(p1.(inventory := Take(p1.inventory, other), pickUpPanelOpen := false), true)
    else
      Stay(p1, false)
  }

  /** Set the inventory flag of an item. */
  function Take(inv: Inventory, item: ColliderName): (r: Inventory)
    requires IsItem(item)
    ensures forall name :: Has(r, name) <==> Has(inv, name) || name == item
    ensures Includes(r, inv)
  {
    match item
    case M4Pickup => inv.(m4Enabled := true)
    case ShotgunPickup => inv.(shotgunEnabled := true)
    case Key => inv.(keyEnabled := true)
    case EndKey => inv.(endKeyEnabled := true)
  }

  /** One trigger-stay reading: the collider and whether E went down. */
  datatype Touch = Touch(other: ColliderName, eDown: bool)

  /** A run of trigger-stay frames. */
  function StayAll(p: Player, touches: seq<Touch>): (r: Player)
    decreases |touches|
  {
    if |touches| == 0 then p
    else StayAll(OnTriggerStay(p, touches[0].other, touches[0].eDown).player, touches[1..])
  }

  /**
   * Pickup flags are monotone: after any run of trigger frames a flag is set
   * exactly when it was set before or E was pressed inside that item's trigger.
   */
  lemma {:induction false} PickupFlagsMonotone(p: Player, touches: seq<Touch>, name: ColliderName)
    decreases |touches|
    ensures Includes(StayAll(p, touches).inventory, p.inventory)
    ensures Has(StayAll(p, touches).inventory, name) <==>
            Has(p.inventory, name) || (IsItem(name) && exists i :: 0 <= i < |touches| && touches[i] == Touch(name, true))
  {
    if |touches| > 0 {
      var p1 := OnTriggerStay(p, touches[0].other, touches[0].eDown).player;
      PickupFlagsMonotone(p1, touches[1..], name);
      var rest := touches[1..];
      assert forall i :: 0 < i < |touches| ==> touches[i] == rest[i - 1];
      if exists i :: 0 <= i < |rest| && rest[i] == Touch(name, true) {
        var i :| 0 <= i < |rest| && rest[i] == Touch(name, true);
        assert touches[i + 1] == Touch(name, true);
      }
      if exists i :: 0 <= i < |touches| && touches[i] == Touch(name, true) {
        var i :| 0 <= i < |touches| && touches[i] == Touch(name, true);
        if i > 0 {
          assert rest[i - 1] == Touch(name, true);
        }
      }
    }
  }
}

=== FILE: frame_time.dfy ===
/** Frame times: a run of frames is described by the sequence of their deltaTime values. */
module FrameTime {

  /** Total time elapsed over a run of frames. */
  function Sum(dts: seq<real>): real
  {
    if |dts| == 0 then 0.0 else dts[0] + Sum(dts[1..])
  }

  /** Frame times are never negative. */
  predicate NonNegative(dts: seq<real>)
  {
    forall i :: 0 <= i < |dts| ==> dts[i] >= 0.0
  }

  /** A run of frames never takes negative time. */
  lemma {:induction false} SumNonNegative(dts: seq<real>)
    requires NonNegative(dts)
    ensures Sum(dts) >= 0.0
  {
    if |dts| > 0 {
      SumNonNegative(dts[1..]);
    }
  }
}

=== FILE: friendly_ai.dfy ===
/**
 * The friendly NPC's perception and gun (FriendlyAI.cs).
 *
 * NPCSight turns the angle between the NPC's head and the zombie, the distance
 * between them and what the NPC's forward ray hit into the animator's Chase and
 * Attack flags.  The vector maths, the raycast itself and the facing turns are left
 * out: angle, distance and ray hit are inputs, and the turns are recorded as
 * decisions.  FireGun and Firing gate the NPC's shots with the shared shot-delay
 * counter; a shot is only the event `shot`.
 */
module FriendlyAI {
  import FireTimer

  /** Field-of-view half angle, chase radius, attack radius and turn-to-face radius (FriendlyAI.cs:109-133). */
  const ViewAngle: real := 100.0
  const ChaseRange: real := 16.0
  const AttackRange: real := 10.0
  const FaceRange: real := 3.0

  /** What the 16-unit forward ray hit: nothing, or a collider whose tag is or is not "Zombie". */
  datatype RayHit = Miss | Hit(isZombie: bool)

  /** The animator's Chase and Attack booleans. */
  datatype SightFlags = SightFlags(chase: bool, attack: bool)

  /** The flags after NPCSight and the two facing decisions it takes. */
  datatype Sight = Sight(
    flags: SightFlags,
    faceTurn: bool,   // slerp towards the zombie (FriendlyAI.cs:113-119)
    lookAt: bool)     // snap to look at the zombie (FriendlyAI.cs:135)

  /** The first block: chase while the zombie is in view and within the chase radius. */
  function ChaseBlock(flags: SightFlags, angle: real, distance: real): (s: Sight)
    ensures s.flags.chase <==> angle < ViewAngle && distance < ChaseRange
    ensures s.flags.attack == flags.attack
    ensures s.faceTurn <==> s.flags.chase && distance < FaceRange
    ensures !s.lookAt
  {
    if angle < ViewAngle && distance < ChaseRange then
      Sight(flags.(chase := true), distance < FaceRange, false)
    else
      Sight(flags.(chase := false), false, false)
  }

  /** The second block, for a ray that did hit a collider. */
  function AttackBlock(s: Sight, isZombie: bool, angle: real, distance: real): Sight
  {
    if isZombie && angle < ViewAngle && distance < AttackRange then
      s.(flags := SightFlags(false, true))
    else if !isZombie && angle < ViewAngle && distance < AttackRange then
      s.(flags := SightFlags(true, false), lookAt := true)
    else
      s.(flags := s.flags.(attack := false))
  }

  /**
   * NPCSight as written: on a miss, reading the hit collider's tag throws, so the
   * frame ends after the chase block with Attack as it was.
   */
  function NPCSightAsWritten(flags: SightFlags, angle: real, distance: real, hit: RayHit): (s: Sight)
    ensures hit.Miss? ==> s == ChaseBlock(flags, angle, distance)
    ensures hit.Hit? ==> !(s.flags.chase && s.flags.attack)
  {
    var s1 := ChaseBlock(flags, angle, distance);
    match hit
    case Miss => s1
    case Hit(isZombie) => AttackBlock(s1, isZombie, angle, distance)
  }

  /** A miss after an attacking frame leaves the NPC both chasing and attacking. */
  lemma MissLeavesBothFlags()
    ensures var s := NPCSightAsWritten(SightFlags(false, true), 50.0, 5.0, Miss);
            s.flags.chase && s.flags.attack
  {
  }

  /**
   * NPCSight, with a miss read as "the ray did not see a zombie", the reading the
   * source's `tag != "Zombie"` branch gives every collider that is not a zombie.
   */
  function NPCSight(flags: SightFlags, angle: real, distance: real, hit: RayHit): (s: Sight)
    ensures var seesZombie := hit.Hit? && hit.isZombie;
            var inView := angle < ViewAngle;
            && (inView && distance < AttackRange && seesZombie ==> s.flags == SightFlags(false, true) && !s.lookAt)
            && (inView && distance < AttackRange && !seesZombie ==> s.flags == SightFlags(true, false) && s.lookAt)
            && (!(inView && distance < AttackRange) ==>
                  !s.flags.attack && (s.flags.chase <==> inView && distance < ChaseRange) && !s.lookAt)
    ensures !(s.flags.chase && s.flags.attack)
    ensures angle >= ViewAngle ==> !s.flags.chase && !s.flags.attack
    ensures s.flags.attack ==> hit.Hit? && hit.isZombie
    ensures s.faceTurn <==> angle < ViewAngle && distance < FaceRange
  {
    var s1 := ChaseBlock(flags, angle, distance);
    match hit
    case Miss => AttackBlock(s1, false, angle, distance)
    case Hit(isZombie) => AttackBlock(s1, isZombie, angle, distance)
  }

  /** On a ray that hit something, the corrected NPCSight and the source agree. */
  lemma SightAgreesOnHit(flags: SightFlags, angle: real, distance: real, isZombie: bool)
    ensures NPCSight(flags, angle, distance, Hit(isZombie)) == NPCSightAsWritten(flags, angle, distance, Hit(isZombie))
  {
  }

  /** The NPC's gun: fire rate and the shot-delay counter. */
  datatype Gunner = Gunner(fireRate: real, fireTimer: real)

  /** Result of a FireGun call. */
  datatype GunShot = GunShot(gunner: Gunner, shot: bool)

  /** FireGun: refused while the counter is below the fire rate; a shot resets it. */
  function FireGun(g: Gunner): (r: GunShot)
    ensures r.shot <==> g.fireTimer >= g.fireRate
    ensures !r.shot ==> r.gunner == g
    ensures r.shot ==> r.gunner == g.(fireTimer := 0.0)
  {
    if g.fireTimer < g.fireRate then GunShot(g, false)
    else GunShot(g.(fireTimer := 0.0), true)
  }

  /** Firing: one frame of the counter, which stops growing at the fire rate. */
  function Firing(g: Gunner, dt: real): (r: Gunner)
    ensures r.fireRate == g.fireRate
    ensures g.fireTimer >= g.fireRate ==> r == g
    ensures g.fireTimer < g.fireRate ==> r.fireTimer - g.fireTimer == dt
  {
    g.(fireTimer := FireTimer.Advance(g.fireTimer, g.fireRate, dt))
  }
}

=== FILE: head_bob.dfy ===
/**
 * The head-bob timeline of the player (CurveControlledBob in FPSController.cs).
 *
 * Two playheads, X for sideways and Y for vertical bob, sweep a curve of length
 * `curveEndTime` and wrap to its start.  Events registered at times on the curve
 * fire when the playhead of their axis passes them.  The curve itself
 * (AnimationCurve.Evaluate) is a foreign call: it is the parameter `curve`.  A
 * callback is named by a number; what it does is up to the caller.
 */
module HeadBob {

  datatype Axis = Horizontal | Vertical

  /** An event on the timeline: its time, the callback it runs, the playhead it follows. */
  datatype BobEvent = BobEvent(time: real, callback: nat, axis: Axis)

  datatype Bob = Bob(
    horizontalMultiplier: real,
    verticalMultiplier: real,
    verticalToHorizontalSpeedRatio: real,
    baseInterval: real,
    prevX: real,
    prevY: real,
    x: real,
    y: real,
    curveEndTime: real,
    events: seq<BobEvent>)

  /** The camera offset of one call. */
  datatype Offset = Offset(x: real, y: real)

  /** Result of GetVectorOffset: the timeline afterwards, the offset and the indices of the events that fired. */
  datatype BobStep = BobStep(bob: Bob, offset: Offset, fired: seq<nat>)

  predicate SortedByTime(es: seq<BobEvent>)
  {
    forall i, j :: 0 <= i < j < |es| ==> es[i].time <= es[j].time
  }

  /** In a sorted list no event is earlier than the first one. */
  lemma HeadIsEarliest(es: seq<BobEvent>)
    requires SortedByTime(es) && |es| > 0
    ensures forall x :: x in es[1..] ==> es[0].time <= x.time
  {
    forall x | x in es[1..] ensures es[0].time <= x.time {
      var j :| 0 <= j < |es[1..]| && es[1..][j] == x;
      assert es[j + 1] == x;
    }
  }

  /** Insert e into a time-sorted list, after the events whose time does not exceed its own. */
  function Insert(e: BobEvent, es: seq<BobEvent>): (r: seq<BobEvent>)
    requires SortedByTime(es)
    decreases |es|
    ensures SortedByTime(r)
    ensures multiset(r) == multiset(es) + multiset{e}
    ensures |r| == |es| + 1
    ensures forall x :: x in r ==> x == e || x in es
  {
    if |es| == 0 then [e]
    else if e.time < es[0].time then
      ConsSorted(e, es);
      [e] + es
    else
      var rest := Insert(e, es[1..]);
      assert es == [es[0]] + es[1..];
      HeadIsEarliest(es);
      assert forall k :: 0 <= k < |rest| ==> es[0].time <= rest[k].time by {
        forall k | 0 <= k < |rest| ensures es[0].time <= rest[k].time {
          assert rest[k] in rest;
        }
      }
      ConsSorted(es[0], rest);
      [es[0]] + rest
  }

  /** An event no later than every event of a sorted list can go in front of it. */
  lemma ConsSorted(x: BobEvent, es: seq<BobEvent>)
    requires SortedByTime(es)
    requires forall k :: 0 <= k < |es| ==> x.time <= es[k].time
    ensures SortedByTime([x] + es)
  {
    var r := [x] + es;
    forall i, j | 0 <= i < j < |r| ensures r[i].time <= r[j].time {
      assert r[j] == es[j - 1];
      if i > 0 {
        assert r[i] == es[i - 1];
      }
    }
  }

  /** Sort by time (by insertion, from the front of the list to its end). */
  function SortByTime(es: seq<BobEvent>): (r: seq<BobEvent>)
    decreases |es|
    ensures SortedByTime(r)
    ensures multiset(r) == multiset(es)
    ensures |r| == |es|
  {
    if |es| == 0 then []
    else
      var front := es[..|es| - 1];
      assert es == front + [es[|es| - 1]];
      Insert(es[|es| - 1], SortByTime(front))
  }

  /** An event later than every event of a sorted list goes at its end. */
  lemma {:induction false} InsertLast(e: BobEvent, es: seq<BobEvent>)
    requires SortedByTime(es)
    requires forall k :: 0 <= k < |es| ==> es[k].time <= e.time
    decreases |es|
    ensures Insert(e, es) == es + [e]
  {
    if |es| > 0 {
      InsertLast(e, es[1..]);
      assert [es[0]] + (es[1..] + [e]) == es + [e];
    }
  }

  /** Sorting a list that is already sorted leaves it as it is. */
  lemma {:induction false} SortSorted(es: seq<BobEvent>)
    requires SortedByTime(es)
    decreases |es|
    ensures SortByTime(es) == es
  {
    if |es| > 0 {
      var front := es[..|es| - 1];
      SortSorted(front);
      InsertLast(es[|es| - 1], front);
      assert front + [es[|es| - 1]] == es;
    }
  }

  /** Initialize: record the curve's end time and put both playheads at its start. */
  function Initialize(b: Bob, lastKeyTime: real): (r: Bob)
    ensures r.curveEndTime == lastKeyTime
    ensures r.x == 0.0 && r.y == 0.0 && Synced(r)
    ensures r.events == b.events
    ensures r.(curveEndTime := b.curveEndTime, x := b.x, y := b.y, prevX := b.prevX, prevY := b.prevY) == b
  {
    b.(curveEndTime := lastKeyTime, x := 0.0, y := 0.0, prevX := 0.0, prevY := 0.0)
  }

  /** RegisterEventCallback: add one event and sort the list by time. */
  function RegisterEventCallback(b: Bob, time: real, callback: nat, axis: Axis): (r: Bob)
    ensures SortedByTime(r.events)
    ensures multiset(r.events) == multiset(b.events) + multiset{BobEvent(time, callback, axis)}
    ensures |r.events| == |b.events| + 1
    ensures r.(events := b.events) == b
  {
    b.(events := SortByTime(b.events + [BobEvent(time, callback, axis)]))
  }

  /** On a list that is already sorted, registering an event only inserts it: the others keep their order. */
  lemma RegisterInserts(b: Bob, time: real, callback: nat, axis: Axis)
    requires SortedByTime(b.events)
    ensures RegisterEventCallback(b, time, callback, axis).events == Insert(BobEvent(time, callback, axis), b.events)
  {
    var e := BobEvent(time, callback, axis);
    var es := b.events + [e];
    assert es[..|es| - 1] == b.events;
    SortSorted(b.events);
  }

  /** The previous playheads equal the current ones, as every call leaves them. */
  predicate Synced(b: Bob)
  {
    b.prevX == b.x && b.prevY == b.y
  }

  /** Wrap a playhead that has passed the end of the curve back by one curve length. */
  function Wrap(p: real, end: real): (r: real)
    ensures p > end ==> r == p - end
    ensures p <= end ==> r == p
    ensures 0.0 <= end && 0.0 <= p <= end + end ==> 0.0 <= r <= end
    ensures r > end ==> p > end + end
  {
    if p > end then p - end else p
  }

  /**
   * The crossing test of an event at time t between the previous playhead and the
   * current one: passed over while moving forward, or, when the playhead wrapped,
   * lying after the previous position or up to the current one.
   */
  predicate Crosses(prev: real, cur: real, t: real)
    ensures prev <= cur ==> (Crosses(prev, cur, t) <==> prev < t <= cur)
    ensures prev > cur ==> (Crosses(prev, cur, t) <==> t > prev || t <= cur)
  {
    (prev < t && cur >= t) || (prev > cur && (t > prev || t <= cur))
  }

  /** Whether an event fires, by the playheads of its axis. */
  predicate Fires(e: BobEvent, prevX: real, x: real, prevY: real, y: real)
  {
    if e.axis == Vertical then Crosses(prevY, y, e.time) else Crosses(prevX, x, e.time)
  }

  /** The indices, from i on, of the events that fire: one pass over the list, in order. */
  function FiredFrom(events: seq<BobEvent>, i: nat, prevX: real, x: real, prevY: real, y: real): (r: seq<nat>)
    requires i <= |events|
    decreases |events| - i
    ensures forall j :: 0 <= j < |r| ==> i <= r[j] < |events| && Fires(events[r[j]], prevX, x, prevY, y)
    ensures forall j, k :: 0 <= j < k < |r| ==> r[j] < r[k]
    ensures forall m :: i <= m < |events| && Fires(events[m], prevX, x, prevY, y) ==> m in r
  {
    if i == |events| then []
    else
      var rest := FiredFrom(events, i + 1, prevX, x, prevY, y);
      if Fires(events[i], prevX, x, prevY, y) then [i] + rest else rest
  }

  /** How far the X playhead moves in one call: speed * deltaTime / baseInterval. */
  function XAdvance(b: Bob, speed: real, dt: real): real
    requires b.baseInterval != 0.0
  {
    (speed * dt) / b.baseInterval
  }

  /** How far the Y playhead moves in one call: the X advance times the speed ratio. */
  function YAdvance(b: Bob, speed: real, dt: real): real
    requires b.baseInterval != 0.0
  {
    XAdvance(b, speed, dt) * b.verticalToHorizontalSpeedRatio
  }

  /** The camera offset at the given playheads: the curve's value times each axis multiplier. */
  function OffsetAt(b: Bob, curve: real -> real, x: real, y: real): Offset
  {
    Offset(curve(x) * b.horizontalMultiplier, curve(y) * b.verticalMultiplier)
  }

  /**
   * GetVectorOffset: advance X by speed * deltaTime / baseInterval and Y by that
   * times the speed ratio, wrap each once, run the events each playhead passed, read
   * the curve at both playheads and remember them as the previous ones.
   */
  function GetVectorOffset(b: Bob, speed: real, dt: real, curve: real -> real): (s: BobStep)
    requires b.baseInterval != 0.0
    ensures var advance := XAdvance(b, speed, dt);
            var yAdvance := YAdvance(b, speed, dt);
            var end := b.curveEndTime;
            && (b.x + advance > end ==> s.bob.x == b.x + advance - end)
            && (b.x + advance <= end ==> s.bob.x == b.x + advance)
            && (b.y + yAdvance > end ==> s.bob.y == b.y + yAdvance - end)
            && (b.y + yAdvance <= end ==> s.bob.y == b.y + yAdvance)
            && (0.0 <= b.x <= end && 0.0 <= advance <= end ==> 0.0 <= s.bob.x <= end)
            && (0.0 <= b.y <= end && 0.0 <= yAdvance <= end ==> 0.0 <= s.bob.y <= end)
    ensures Synced(s.bob)
    ensures s.bob.events == b.events && s.bob.curveEndTime == b.curveEndTime
    ensures s.bob.(x := b.x, y := b.y, prevX := b.prevX, prevY := b.prevY) == b
    ensures forall m :: m in s.fired <==> 0 <= m < |b.events| && Fires(b.events[m], b.prevX, s.bob.x, b.prevY, s.bob.y)
    ensures forall j, k :: 0 <= j < k < |s.fired| ==> s.fired[j] < s.fired[k]
    ensures forall j :: 0 <= j < |s.fired| ==> s.fired[j] < |b.events|
    ensures s.offset == OffsetAt(b, curve, s.bob.x, s.bob.y)
  {
    var advance := XAdvance(b, speed, dt);
    var x := Wrap(b.x + advance, b.curveEndTime);
    var y := Wrap(b.y + YAdvance(b, speed, dt), b.curveEndTime);
    var fired := FiredFrom(b.events, 0, b.prevX, x, b.prevY, y);
    var offset := OffsetAt(b, curve, x, y);
    BobStep(b.(x := x, y := y, prevX := x, prevY := y), offset, fired)
  }

  /**
   * For a step shorter than the curve, an event at a time in (0, end] fires exactly
   * when the swept arc (prev, prev + step], read around the cycle, contains it.
   */
  lemma FiresIffSwept(prev: real, step: real, end: real, t: real)
    requires 0.0 <= prev <= end
    requires 0.0 <= step < end
    requires 0.0 < t <= end
    ensures Crosses(prev, Wrap(prev + step, end), t) <==>
            (prev < t <= prev + step) || (prev < t + end <= prev + step)
  {
  }

  /** A step of exactly one curve length from a non-zero playhead fires no event at all. */
  lemma FullCycleStepFiresNothing(prev: real, end: real, t: real)
    requires 0.0 < prev <= end
    ensures !Crosses(prev, Wrap(prev + end, end), t)
  {
  }
}

=== FILE: option.dfy ===
/** The usual Some/None wrapper, for values a frame may or may not produce. */
module Optional {

  datatype Option<+T> = None | Some(value: T)
}

=== FILE: weapon.dfy ===
/**
 * The player's gun (Weapon.cs): magazine and reserve ammunition, the shot-delay
 * counter, the fire guard, the reload transfer and the per-frame input rules that
 * choose between firing and asking the animator for a reload.
 *
 * The raycast, bullet spread, particles, sound and ammo text are left out: a shot is
 * only the event `fired`.  Whether the animator is in its "Reload" state is an input
 * (`SyncReloading`).  Ammunition is an unbounded `int`.
 */
module Weapon {
  import opened FrameTime
  import FireTimer

  datatype WeaponState = WeaponState(
    bulletsPerMag: int,   // magazine capacity
    totalBullets: int,    // reserve
    fireRate: real,       // minimum delay between rifle shots
    fireTimer: real,      // time since the last rifle shot, saturating at fireRate
    currentBullets: int,  // rounds in the magazine
    isReloading: bool)    // the animator's base layer is in its "Reload" state

  /** The ammunition invariant the gun keeps. */
  predicate Valid(w: WeaponState)
  {
    0 <= w.currentBullets <= w.bulletsPerMag && w.totalBullets >= 0
  }

  /** Readings of the fire and reload buttons for one frame. */
  datatype TriggerInput = TriggerInput(
    fireHeld: bool,       // Input.GetButton("Fire1")
    firePressed: bool,    // Input.GetButtonDown("Fire1")
    reloadPressed: bool)  // Input.GetKeyDown(KeyCode.R)

  /** Result of a fire attempt. */
  datatype Shot = Shot(weapon: WeaponState, fired: bool)

  /** Result of one frame of Update. */
  datatype Frame = Frame(weapon: WeaponState, fired: bool, reloadRequested: bool)

  /** Start: the magazine begins full and the counter at zero. */
  function Start(bulletsPerMag: int, totalBullets: int, fireRate: real): (w: WeaponState)
    ensures w.bulletsPerMag == bulletsPerMag && w.fireRate == fireRate
    ensures w.currentBullets == w.bulletsPerMag && w.totalBullets == totalBullets
    ensures w.fireTimer == 0.0 && !w.isReloading
    ensures 0 <= bulletsPerMag && 0 <= totalBullets ==> Valid(w)
  {
    WeaponState(bulletsPerMag, totalBullets, fireRate, 0.0, bulletsPerMag, false)
  }

  function Min(a: int, b: int): int
  {
    if a <= b then a else b
  }

  /**
   * Reload: move rounds from the reserve into the magazine, as many as fit and as
   * many as the reserve holds.  With an empty (or negative) reserve nothing happens.
   */
  function Reload(w: WeaponState): (r: WeaponState)
    ensures r.currentBullets + r.totalBullets == w.currentBullets + w.totalBullets
    ensures w.totalBullets <= 0 ==> r == w
    ensures w.totalBullets > 0 ==>
              r.currentBullets - w.currentBullets == Min(w.bulletsPerMag - w.currentBullets, w.totalBullets)
    ensures Valid(w) ==> Valid(r)
    ensures Valid(w) && w.totalBullets > 0 ==> r.currentBullets == r.bulletsPerMag || r.totalBullets == 0
    ensures r.bulletsPerMag == w.bulletsPerMag && r.fireRate == w.fireRate
    ensures r.fireTimer == w.fireTimer && r.isReloading == w.isReloading
  {
    if w.totalBullets <= 0 then w
    else
      var bulletsToLoad := w.bulletsPerMag - w.currentBullets;
      var bulletsToDeduct := if w.totalBullets >= bulletsToLoad then bulletsToLoad else w.totalBullets;
      w.(totalBullets := w.totalBullets - bulletsToDeduct,
         currentBullets := w.currentBullets + bulletsToDeduct)
  }

  /**
   * Fire: refused while the counter is below the fire rate, the magazine is empty or
   * a reload is playing.  A shot takes one round; a rifle shot also resets the
   * counter, a shotgun shot does not.
   */
  function Fire(w: WeaponState, shotgunActive: bool): (s: Shot)
    ensures s.fired <==> w.fireTimer >= w.fireRate && w.currentBullets > 0 && !w.isReloading
    ensures !s.fired ==> s.weapon == w
    ensures s.fired ==> s.weapon.currentBullets == w.currentBullets - 1
    ensures s.weapon.totalBullets == w.totalBullets
    ensures s.fired && !shotgunActive ==> s.weapon.fireTimer == 0.0
    ensures shotgunActive ==> s.weapon.fireTimer == w.fireTimer
    ensures w.currentBullets >= 0 ==> s.weapon.currentBullets >= 0
    ensures Valid(w) ==> Valid(s.weapon)
    ensures s.weapon.(currentBullets := w.currentBullets, fireTimer := w.fireTimer) == w
  {
    if w.fireTimer < w.fireRate || w.currentBullets <= 0 || w.isReloading then Shot(w, false)
    else if !shotgunActive then Shot(w.(currentBullets := w.currentBullets - 1, fireTimer := 0.0), true)
    else Shot(w.(currentBullets := w.currentBullets - 1), true)
  }

  /**
   * DoReload: only asks the animator to cross-fade into its "Reload" state, and only
   * when it is not already there; no ammunition moves.
   */
  function DoReload(w: WeaponState): (requested: bool)
    ensures requested ==> !w.isReloading
    ensures !w.isReloading ==> requested
  {
    !w.isReloading
  }

  /** FixedUpdate: mirror whether the animator's base layer is in "Reload". */
  function SyncReloading(w: WeaponState, animatorInReload: bool): (r: WeaponState)
    ensures r.isReloading == animatorInReload
    ensures r.(isReloading := w.isReloading) == w
  {
    w.(isReloading := animatorInReload)
  }

  /**
   * Update: the trigger is the held button for the rifles and the press edge for the
   * shotgun.  With rounds in the magazine the trigger fires, otherwise it requests a
   * reload.  R requests a reload when the magazine (as left by the fire step) is not
   * full and the reserve is not empty.  Finally the shot-delay counter ticks.
   */
  function Update(w: WeaponState, shotgunActive: bool, input: TriggerInput, dt: real): (f: Frame)
    ensures var trigger := if shotgunActive then input.firePressed else input.fireHeld;
            && (f.fired ==> trigger && w.currentBullets > 0)
            && (trigger && w.currentBullets > 0 ==> (f.fired <==> Fire(w, shotgunActive).fired))
            && (trigger && w.currentBullets <= 0 ==> !f.fired && (f.reloadRequested <==> !w.isReloading))
    ensures var trigger := if shotgunActive then input.firePressed else input.fireHeld;
            f.reloadRequested <==>
              || (trigger && w.currentBullets <= 0 && !w.isReloading)
              || (input.reloadPressed && f.weapon.currentBullets < w.bulletsPerMag && w.totalBullets > 0 && !w.isReloading)
    ensures f.weapon.totalBullets == w.totalBullets
    ensures f.weapon.currentBullets == (if f.fired then w.currentBullets - 1 else w.currentBullets)
    ensures !f.fired ==> f.weapon.fireTimer == FireTimer.Advance(w.fireTimer, w.fireRate, dt)
    ensures f.fired && !shotgunActive ==> f.weapon.fireTimer == FireTimer.Advance(0.0, w.fireRate, dt)
    ensures f.fired && shotgunActive ==> f.weapon.fireTimer == w.fireTimer
    ensures f.weapon.(currentBullets := w.currentBullets, fireTimer := w.fireTimer) == w
    ensures Valid(w) ==> Valid(f.weapon)
  {
    var trigger := if shotgunActive then input.firePressed else input.fireHeld;
    var shot := if trigger && w.currentBullets > 0 then Fire(w, shotgunActive) else Shot(w, false);
    var fireRequest := trigger && w.currentBullets <= 0 && DoReload(w);
    var w1 := shot.weapon;
    var keyRequest := input.reloadPressed && w1.currentBullets < w1.bulletsPerMag && w1.totalBullets > 0 && DoReload(w1);
    var w2 := w1.(fireTimer := FireTimer.Advance(w1.fireTimer, w1.fireRate, dt));
    Frame(w2, shot.fired, fireRequest || keyRequest)
  }

  /** Result of a run of frames: the gun afterwards and how many shots were fired. */
  datatype Run = Run(weapon: WeaponState, shots: nat)

  /**
   * A run of Update frames with a fixed active weapon kind.  Every round that leaves
   * the magazine is a shot, and Update alone never touches the reserve.
   */
  function RunFrames(w: WeaponState, shotgunActive: bool, inputs: seq<TriggerInput>, dts: seq<real>): (r: Run)
    requires |inputs| == |dts|
    decreases |inputs|
    ensures r.weapon.currentBullets + r.shots == w.currentBullets
    ensures r.weapon.totalBullets == w.totalBullets
    ensures Valid(w) ==> Valid(r.weapon)
  {
    if |inputs| == 0 then Run(w, 0)
    else
      var f := Update(w, shotgunActive, inputs[0], dts[0]);
      var rest := RunFrames(f.weapon, shotgunActive, inputs[1..], dts[1..]);
      Run(rest.weapon, rest.shots + (if f.fired then 1 else 0))
  }

  /**
   * Rifle fire rate: while the counter plus the time of the frames that follow stays
   * below the fire rate, no rifle shot is fired in any of those frames.
   */
  lemma {:induction false} NoRifleShotWithinFireRate(w: WeaponState, inputs: seq<TriggerInput>, dts: seq<real>)
    requires |inputs| == |dts|
    requires NonNegative(dts)
    requires w.fireTimer + Sum(dts) < w.fireRate
    decreases |inputs|
    ensures RunFrames(w, false, inputs, dts).shots == 0
  {
    if |inputs| > 0 {
      var rest := dts[1..];
      assert NonNegative(rest) by {
        forall i | 0 <= i < |rest| ensures rest[i] >= 0.0 {
          assert rest[i] == dts[i + 1];
        }
      }
      SumNonNegative(rest);
      var f := Update(w, false, inputs[0], dts[0]);
      assert !f.fired;
      assert f.weapon.fireTimer == w.fireTimer + dts[0];
      NoRifleShotWithinFireRate(f.weapon, inputs[1..], rest);
    }
  }

  /** A rifle shot followed at once by another attempt: the second one is refused. */
  lemma RifleShotThenBlocked(w: WeaponState)
    requires w.fireRate > 0.0
    requires Fire(w, false).fired
    ensures !Fire(Fire(w, false).weapon, false).fired
  {
  }
}

=== FILE: weapon_manager.dfy ===
/**
 * Weapon selection (WeaponManager.cs): keys 1, 2 and 3 make weapon 0, 1 or 2 the
 * only active one, slot 2 needs the M4 and slot 3 the shotgun to have been picked
 * up, and every switch locks further switching for `switchDelay` seconds.
 *
 * The coroutine SwitchAfterDelay becomes the countdown `switchRemaining`: the lock
 * is set at once when a switch happens and is released by the countdown in a later
 * frame, after that frame's key check, once the delay has elapsed.
 */
module WeaponManager {
  import opened Optional
  import opened FrameTime

  datatype Loadout = Loadout(
    weapons: seq<bool>,      // active flag of each weapon game object
    isShotgunActive: bool,
    isSwitching: bool,       // the switch lock
    switchRemaining: real,   // time left before the lock is released
    switchDelay: real)

  /** Number-key presses of one frame (Input.GetKeyDown of Alpha1..Alpha3). */
  datatype SlotKeys = SlotKeys(alpha1: bool, alpha2: bool, alpha3: bool)

  /** The player's weapon pickups (FPSController.M4Enabled, ShotgunEnabled). */
  datatype Unlocks = Unlocks(m4Enabled: bool, shotgunEnabled: bool)

  /** Weapon k is active and every other weapon is inactive. */
  predicate OnlyActive(weapons: seq<bool>, k: int)
  {
    0 <= k < |weapons| && forall i :: 0 <= i < |weapons| ==> (weapons[i] <==> i == k)
  }

  /** The state the manager keeps: three weapons, one active, the shotgun flag tracking slot 2. */
  predicate Consistent(l: Loadout)
  {
    && |l.weapons| >= 3
    && (exists k | 0 <= k < |l.weapons| :: OnlyActive(l.weapons, k))
    && (l.isShotgunActive <==> l.weapons[2])
  }

  /** Deactivate every weapon, then activate weapon k. */
  function ActivateOnly(n: nat, k: nat): (weapons: seq<bool>)
    requires k < n
    ensures |weapons| == n && OnlyActive(weapons, k)
  {
    seq(n, i => i == k)
  }

  /** InitialiseWeapons: weapon 0 alone is active. */
  function InitialiseWeapons(weapons: seq<bool>): (r: seq<bool>)
    requires |weapons| >= 1
    ensures |r| == |weapons|
    ensures OnlyActive(r, 0)
  {
    ActivateOnly(|weapons|, 0)
  }

  /** Start: weapons initialised, no shotgun, no lock. */
  function Start(weapons: seq<bool>, switchDelay: real): (l: Loadout)
    requires |weapons| >= 3
    ensures Consistent(l) && OnlyActive(l.weapons, 0)
    ensures !l.isShotgunActive && !l.isSwitching
    ensures |l.weapons| == |weapons| && l.switchDelay == switchDelay
  {
    var ws := InitialiseWeapons(weapons);
    assert OnlyActive(ws, 0);
    Loadout(ws, false, false, 0.0, switchDelay)
  }

  /** IsShotgunActive: the flag, which in a consistent loadout says whether slot 3 is in hand. */
  function IsShotgunActive(l: Loadout): (active: bool)
    requires Consistent(l)
    ensures active <==> OnlyActive(l.weapons, 2)
  {
    l.isShotgunActive
  }

  /** One switch block of NewSwitchWeapons, with the synchronous start of SwitchAfterDelay. */
  function SwitchTo(l: Loadout, k: nat, shotgun: bool): Loadout
    requires k < |l.weapons|
  {
    l.(weapons := ActivateOnly(|l.weapons|, k), isShotgunActive := shotgun,
       isSwitching := true, switchRemaining := l.switchDelay)
  }

  /** The slot a frame's keys select: the first eligible key in the order 1, 2, 3. */
  function Selected(keys: SlotKeys, unlocks: Unlocks): Option<nat>
  {
    if keys.alpha1 then Some(0)
    else if keys.alpha2 && unlocks.m4Enabled then Some(1)
    else if keys.alpha3 && unlocks.shotgunEnabled then Some(2)
    else None
  }

  /**
   * NewSwitchWeapons: three key checks in a row; the first one that succeeds sets
   * the lock, which makes the later checks of the same frame fail.
   */
  function NewSwitchWeapons(l: Loadout, keys: SlotKeys, unlocks: Unlocks): (r: Loadout)
    requires |l.weapons| >= 3
    ensures l.isSwitching ==> r == l
    ensures !l.isSwitching && Selected(keys, unlocks).None? ==> r == l
    ensures !l.isSwitching && Selected(keys, unlocks).Some? ==>
              var k := Selected(keys, unlocks).value;
              && OnlyActive(r.weapons, k)
              && (r.isShotgunActive <==> k == 2)
              && r.isSwitching
              && r.switchRemaining == l.switchDelay
              && r.switchDelay == l.switchDelay
    ensures Consistent(l) ==> Consistent(r)
  {
    var l1 := if keys.alpha1 && !l.isSwitching then SwitchTo(l, 0, false) else l;
    var l2 := if keys.alpha2 && !l1.isSwitching && unlocks.m4Enabled then SwitchTo(l1, 1, false) else l1;
    var l3 := if keys.alpha3 && !l2.isSwitching && unlocks.shotgunEnabled then SwitchTo(l2, 2, true) else l2;
    assert l3 != l ==> OnlyActive(l3.weapons, Selected(keys, unlocks).value);
    l3
  }

  /** The countdown that replaces WaitForSeconds: the lock is released once the delay has elapsed. */
  function CountDown(l: Loadout, dt: real): (r: Loadout)
    ensures !l.isSwitching ==> r == l
    ensures l.isSwitching ==> (r.isSwitching <==> l.switchRemaining - dt > 0.0)
    ensures r.weapons == l.weapons && r.isShotgunActive == l.isShotgunActive
  {
    if !l.isSwitching then l
    else
      var remaining := l.switchRemaining - dt;
      if remaining > 0.0 then l.(switchRemaining := remaining)
      else l.(switchRemaining := 0.0, isSwitching := false)
  }

  /**
   * One frame: the key check of Update, then (for a lock taken in an earlier frame)
   * the countdown.  A lock taken in this frame does not count this frame's time.
   */
  function Frame(l: Loadout, keys: SlotKeys, unlocks: Unlocks, dt: real): (r: Loadout)
    requires |l.weapons| >= 3
    ensures l.isSwitching ==> r.weapons == l.weapons && r.isShotgunActive == l.isShotgunActive
    ensures l.isSwitching ==> (r.isSwitching <==> l.switchRemaining - dt > 0.0)
    ensures !l.isSwitching ==> r == NewSwitchWeapons(l, keys, unlocks)
    ensures Consistent(l) ==> Consistent(r)
    ensures |r.weapons| == |l.weapons| && r.switchDelay == l.switchDelay
  {
    var l1 := NewSwitchWeapons(l, keys, unlocks);
    if l.isSwitching then CountDown(l1, dt) else l1
  }

  /** A run of frames. */
  function RunFrames(l: Loadout, keys: seq<SlotKeys>, unlocks: seq<Unlocks>, dts: seq<real>): (r: Loadout)
    requires |l.weapons| >= 3
    requires |keys| == |unlocks| == |dts|
    decreases |dts|
    ensures |r.weapons| == |l.weapons|
    ensures Consistent(l) ==> Consistent(r)
  {
    if |dts| == 0 then l
    else RunFrames(Frame(l, keys[0], unlocks[0], dts[0]), keys[1..], unlocks[1..], dts[1..])
  }

  /**
   * While the time since a switch is below the delay, whatever keys are pressed the
   * selection does not change and the lock stays on.
   */
  lemma {:induction false} LockHoldsForDelay(l: Loadout, keys: seq<SlotKeys>, unlocks: seq<Unlocks>, dts: seq<real>)
    requires |l.weapons| >= 3
    requires |keys| == |unlocks| == |dts|
    requires l.isSwitching
    requires NonNegative(dts)
    requires Sum(dts) < l.switchRemaining
    decreases |dts|
    ensures RunFrames(l, keys, unlocks, dts).weapons == l.weapons
    ensures RunFrames(l, keys, unlocks, dts).isShotgunActive == l.isShotgunActive
    ensures RunFrames(l, keys, unlocks, dts).isSwitching
  {
    if |dts| > 0 {
      var rest := dts[1..];
      assert NonNegative(rest) by {
        forall i | 0 <= i < |rest| ensures rest[i] >= 0.0 {
          assert rest[i] == dts[i + 1];
        }
      }
      SumNonNegative(rest);
      var l1 := Frame(l, keys[0], unlocks[0], dts[0]);
      assert l1.isSwitching && l1.switchRemaining == l.switchRemaining - dts[0];
      LockHoldsForDelay(l1, keys[1..], unlocks[1..], rest);
    }
  }

  /**
   * The lock is released in the first frame whose accumulated time reaches the
   * remaining delay, and no switch happens before then.
   */
  lemma {:induction false} LockReleasedWhenDelayElapses(l: Loadout, keys: seq<SlotKeys>, unlocks: seq<Unlocks>, dts: seq<real>)
    requires |l.weapons| >= 3
    requires |keys| == |unlocks| == |dts| > 0
    requires l.isSwitching
    requires NonNegative(dts)
    requires Sum(dts[..|dts| - 1]) < l.switchRemaining <= Sum(dts)
    decreases |dts|
    ensures RunFrames(l, keys, unlocks, dts).weapons == l.weapons
    ensures !RunFrames(l, keys, unlocks, dts).isSwitching
  {
    var rest := dts[1..];
    var l1 := Frame(l, keys[0], unlocks[0], dts[0]);
    if |dts| == 1 {
      assert dts[..0] == [];
      assert Sum(dts) == dts[0] + Sum([]);
      assert !l1.isSwitching;
    } else {
      assert NonNegative(rest) by {
        forall i | 0 <= i < |rest| ensures rest[i] >= 0.0 {
          assert rest[i] == dts[i + 1];
        }
      }
      var front := dts[..|dts| - 1];
      assert front[1..] == rest[..|rest| - 1];
      assert NonNegative(front[1..]) by {
        forall i | 0 <= i < |front[1..]| ensures front[1..][i] >= 0.0 {
          assert front[1..][i] == dts[i + 1];
        }
      }
      SumNonNegative(front[1..]);
      assert Sum(front) == dts[0] + Sum(front[1..]);
      assert l1.isSwitching && l1.switchRemaining == l.switchRemaining - dts[0];
      LockReleasedWhenDelayElapses(l1, keys[1..], unlocks[1..], rest);
    }
  }
}
